=== FILE: README.md ===
# Berlioz HttpCore request dispatch, modelled in Dafny

This project models the request-dispatch pipeline of the Berlioz HttpCore
package. `HttpApp::handle` routes a request, builds the controller, runs the
optional `_b_pre` hook, then the route's method (only while the working status
is 2xx), then the optional `_b_post` hook. It hands any throwable to
`HttpApp::httpErrorHandler`. That handler tries three tiers in turn. The first
is the handler class configured for the exception's code. The second is a
directly built `DefaultHttpErrorHandler`. The last is an inline HTML page with
status 500. `DefaultHttpErrorHandler::handle` renders a template into a
response carrying the exception's code and message.

The model is a set of pure functions over the collaborators' outcomes:

- the router's answer (`Routing`);
- the controller's methods, as functions from the working response to a
  `Call` (throws, returns a Response, returns another value);
- the configuration (a map from dotted key to a value or a failing read);
- the class lookup (`class_exists` / `is_a(..., HttpErrorHandler)`), which
  may run an autoloader that throws;
- the container, the templating engine and the exception's string form,
  whose `__toString` may throw.

`HttpDispatch.Dispatch` returns the final response, the stages that ran, the
exception handed to the error handler and the tier that answered it.
`DispatchProperties` states the dispatch rules over all of these inputs. It
also gives a second, table-driven definition of the controller lifecycle
(`RunSteps` over `Lifecycle`) and proves it equal to the straight-line model.

Modules: `Wrappers` (Option, Result), `Strings` (substring search and decimal
rendering), `Messages` (Response, HttpException, Throwable),
`DefaultHttpErrorHandler`, `HttpErrorFallback` (`httpErrorHandler`),
`HttpDispatch` (`handle`), `DispatchProperties`.

Facts about the code that the model keeps:

- A route is dispatched only when both `_class` and `_method` are non-empty
  (line 119). PHP's `empty()` also treats the string "0" as empty.
- Whether a missing route or target is answered with 404 or 500 depends on
  the error handler. When every tier fails, the answer is the inline page,
  whose status is 500 even for a missing route.
- In debug mode the inline page still contains the generic sentence when the
  exception's own text contains it. `InlinePageGenericIff` proves the exact
  condition: debug is off, or the exception's text is produced and contains
  the sentence. `DebugPageOmitsGeneric` proves that the page's own markup
  never forms it.
- In debug mode, `$debug` is already truthy (line 253) when `"{$e}"` is
  evaluated (line 254). If that string conversion throws, the `catch` at
  line 256 swallows it and line 259 skips the generic sentence. The page is
  then the bare markup, with neither the exception text nor the sentence
  (`InlinePageShowsException`, `BarePageOmitsGeneric`).
- `handle` has a default `null` request. With a dispatchable route, line 121
  calls `getAttribute` on that `null`. The resulting Error is answered as an
  internal server error (`NullRequestIsInternalError`).
- Under `strict_types`, `class_exists` accepts only strings. A configured
  handler identifier of boolean `true` or of a non-zero integer makes it raise
  a TypeError, so tier 1 fails. `false`, `0`, `null`, "" and "0" are empty and
  select the default handler before `class_exists` is reached. An autoloader
  that throws while `class_exists` looks a string up also makes tier 1 fail.

## Model

| member | source | states |
|---|---|---|
| DefaultHttpErrorHandler.Handle | src/Http/DefaultHttpErrorHandler.php:26-33 | succeeds exactly when rendering the error template succeeds; then the status is the exception's code, the reason is its message, the body is exactly the rendered text and no header is set; a rendering failure propagates unchanged |
| HttpErrorFallback.ConfigGet | src/App/HttpApp.php:220-225 | a configuration read gives the stored value, the default when the key is absent, and fails exactly when the stored read fails |
| HttpErrorFallback.ErrorsKeyInjective | src/App/HttpApp.php:222 | `berlioz.http.errors.<code>` keys of distinct codes differ, and none equals `berlioz.http.errors.default` |
| HttpErrorFallback.ValidHandler | src/App/HttpApp.php:228-230 | an empty identifier (null, false, 0, "", "0") gives the default handler class; the check throws exactly for a non-empty non-string or a string whose lookup runs a throwing autoloader, and then with that autoloader's throwable; a non-default result is a string naming a loaded HttpErrorHandler class, and such a string is kept |
| HttpErrorFallback.SelectHandler | src/App/HttpApp.php:220-230 | a selected class is the default handler or an existing HttpErrorHandler class; a failing read of either configuration key makes selection fail |
| HttpErrorFallback.ConfiguredTier | src/App/HttpApp.php:218-241 | tier 1 succeeds only when selection, instantiation and `getServerRequest()` complete; then its result is the default handler's `handle` for the default class and the configured handler's `handle` otherwise; a selection failure is its failure |
| HttpErrorFallback.DefaultTier | src/App/HttpApp.php:243-245 | tier 2 succeeds exactly when constructing the default handler, `getServerRequest()` and rendering succeed, and then answers with the exception's code, message and rendered page and no headers |
| HttpErrorFallback.DebugEnabled | src/App/HttpApp.php:251-257 | debug is off when `berlioz.debug` is absent or its read throws, and otherwise on exactly when the value is truthy |
| HttpErrorFallback.SelectionFollowsConfiguration | src/App/HttpApp.php:220-230 | the handler class is the value of `errors.<code>`, or of `errors.default` when that key is absent, if it names an existing HttpErrorHandler class, and the default handler otherwise (empty, "0", null, false, 0, unknown or non-handler); selection fails exactly on a failing read, a non-empty value that is not a string (`true`, a non-zero integer), or a string whose lookup throws in an autoloader |
| HttpErrorFallback.InlineTier | src/App/HttpApp.php:247-266 | the inline page has status 500, no headers and no reason phrase |
| HttpErrorFallback.InlinePageShowsException | src/App/HttpApp.php:251-264 | with a truthy `berlioz.debug` the page contains the exception's string form; if producing that string throws, the page is the bare markup |
| HttpErrorFallback.InlinePageShowsGeneric | src/App/HttpApp.php:251-261 | when the debug flag is falsy, absent or its read throws, the page contains "Looks like we're having some server issues." |
| HttpErrorFallback.DebugPageOmitsGeneric | src/App/HttpApp.php:252-261 | in debug mode the page contains the generic sentence only if the exception's text is produced and contains it |
| HttpErrorFallback.InlinePageGenericIff | src/App/HttpApp.php:247-266 | the page contains the generic sentence if and only if debug is off, or the exception's text is produced and contains it |
| HttpErrorFallback.BarePageOmitsGeneric | src/App/HttpApp.php:252-264 | the bare page left when the string conversion throws in debug mode does not contain the generic sentence |
| HttpErrorFallback.InlinePageHidesException | src/App/HttpApp.php:252-261 | outside debug mode every exception gets the identical page |
| HttpErrorFallback.HandleHttpError | src/App/HttpApp.php:216-271 | always yields a response; tier 1's exactly when tier 1 succeeds, tier 2's exactly when tier 1 threw and tier 2 succeeded, and otherwise exactly the inline page of `InlineTier` |
| HttpDispatch.RunHook | src/App/HttpApp.php:137-150 | an absent hook changes nothing and leaves no trace; a present hook runs once, fails exactly when it throws, and changes the working response only to a Response it returned (the post-hook at lines 170-183 is the same call) |
| HttpDispatch.RunMain | src/App/HttpApp.php:152-168 | the main method runs exactly when the working status is in [200, 300); otherwise the working response passes through; a non-Response value becomes the body with status, reason and headers kept |
| HttpDispatch.RunController | src/App/HttpApp.php:126-183 | the lifecycle starts by building the controller; a failure to build it ends the run with that throwable |
| HttpDispatch.Pipeline | src/App/HttpApp.php:108-192 | the router always runs first; without a matched route nothing else runs and the run fails |
| HttpDispatch.AsHttpException | src/App/HttpApp.php:193-196 | an HttpException passes through unchanged; any other throwable becomes a 500 whose cause is the original |
| HttpDispatch.Dispatch | src/App/HttpApp.php:106-199 | a completed pipeline's working response is returned untouched; a failed one's throwable is converted and its response is the error handler's |
| DispatchProperties.RunStepsStopsAtFailure | src/App/HttpApp.php:126-183 | in the reference lifecycle every traced stage is one of the steps, and a failed run's last traced stage is that of a step whose call can raise exactly the run's throwable (on some working response) |
| DispatchProperties.PreStepIsHook | src/App/HttpApp.php:137-150 | the reference pre-hook step behaves as `RunHook` and hands its working response on |
| DispatchProperties.MainStepIsGatedMain | src/App/HttpApp.php:152-183 | the reference main step then post step behave as `RunMain` followed by `RunHook` |
| DispatchProperties.PostStepIsHook | src/App/HttpApp.php:170-183 | the reference post-hook step behaves as `RunHook` |
| DispatchProperties.RunControllerIsLifecycle | src/App/HttpApp.php:126-183 | the straight-line controller model equals running the table of steps (pre-hook, gated main, post-hook) from a fresh response |
| DispatchProperties.NoRouteIsNotFound | src/App/HttpApp.php:190-191 | no route: the handled exception is NotFound (404), only the router ran, the response is the error handler's |
| DispatchProperties.MissingTargetIsInternalError | src/App/HttpApp.php:187-188 | a route with an empty or missing `_class` or `_method`: the handled exception is InternalServerError (500) and no controller is built |
| DispatchProperties.NullRequestIsInternalError | src/App/HttpApp.php:121-123 | a dispatchable route with a null request is answered as a 500 caused by the null dereference, before any controller is built |
| DispatchProperties.ControllerOnlyOnDispatchPath | src/App/HttpApp.php:119-135 | building the controller (`newInstanceOf`) is attempted if and only if the route is dispatchable and a request was given, whether or not it then throws; the locale is set exactly then and exactly to the request's `_locale` attribute |
| DispatchProperties.ControllerRunsMainOnceIffGate | src/App/HttpApp.php:152-168 | the main method appears exactly once in the lifecycle when the pre-hook did not throw and left a 2xx status, and never otherwise |
| DispatchProperties.MainRunsOnceIffGate | src/App/HttpApp.php:152-168 | the same for the whole dispatch: main runs once exactly when the gate holds, else zero times |
| DispatchProperties.NoPreHookRunsMain | src/App/HttpApp.php:127-153 | without a pre-hook the gate sees the fresh 200 response and the main method runs |
| DispatchProperties.PostHookRunsEitherWay | src/App/HttpApp.php:170-183 | the post-hook runs exactly when it exists and nothing before it threw, whether or not main was skipped |
| DispatchProperties.PreHookShortCircuits | src/App/HttpApp.php:147-153 | a pre-hook Response with a non-2xx status skips main and, without a post-hook, is the final response |
| DispatchProperties.PreHookValueIgnored | src/App/HttpApp.php:147-149 | a non-Response pre-hook result leaves the model's working response the fresh response, traced as `PreHook`, and main runs |
| DispatchProperties.MainResultBecomesResponse | src/App/HttpApp.php:161-167 | a non-Response main result becomes the body with status, reason and headers kept; a Response result is returned as is |
| DispatchProperties.PostHookReplacesOnlyWithResponse | src/App/HttpApp.php:180-182 | a post-hook Response replaces the working response, any other value leaves it, a throw is handled |
| DispatchProperties.FailureAbortsRemainingSteps | src/App/HttpApp.php:126-198 | a throw while building the controller, in the pre-hook or in main ends the lifecycle at that step, later steps do not run and that throwable is handled |
| DispatchProperties.FailuresReachHandlerAsHttpExceptions | src/App/HttpApp.php:193-198 | thrown HttpExceptions reach the error handler unchanged; other throwables arrive as 500 with the original as cause |
| DispatchProperties.DefaultHandlerAnswer | src/App/HttpApp.php:228-241 | when tier 1 resolves to the default handler and rendering succeeds, the answer is the exception's code, message and rendered page |
| DispatchProperties.DefaultTierMatchesConfiguredDefault | src/App/HttpApp.php:228-245 | a substituted default handler in tier 1 answers exactly as tier 2 would |
| DispatchProperties.RenderFailureEndsInline | src/App/HttpApp.php:242-267 | when the default handler is the one selected and its rendering throws, the answer is the inline page |
| DispatchProperties.NoRouteAnswer | src/App/HttpApp.php:190-198 | no route, no handler configured and a rendering template: status 404, reason "Not Found", body the rendered page |

## Left out

- `printResponse` (src/App/HttpApp.php:280-304): header and body output, which is I/O.
- The constructor, `getRouter` and `getRoute` (src/App/HttpApp.php:53-92): service registration and framework wiring. The `$this->route` field is not kept.
- Debug timeline activities (lines 112, 114, 128, 185, including the `finally` block) and the `X-Berlioz-Debug` header (lines 201-206): observability only. `Dispatch` stops at line 199, so nothing is claimed about lines 201-206 throwing.
- The process-wide locale: only recorded as a `LocaleSet` stage. `setLocale` is taken not to throw.
- Router matching, container instantiation, `method_exists`, Twig rendering and PSR-7 `Stream` internals: external libraries. Each appears only as an opaque outcome.
- `new Response` (line 127) is taken to start with status 200, an empty reason phrase, no headers and an empty body, and `new Response($str, 500)` (line 266) with that status, an empty reason phrase and no headers. These are the message library's constructor defaults; that class is not part of this model. The gate for a controller without a pre-hook (`NoPreHookRunsMain`) rests on the status 200.
- Validation the Response class may apply to a status code (for an exception code that is not an HTTP status): not modelled, because the message library is not part of this model.
- The main method's non-Response value is modelled by its string form. How `Stream::write` treats other PHP types is not part of this model.
- Collaborators are deterministic. `getServerRequest()` and template rendering give the same outcome in tier 1 and tier 2. The request bound in the template is not modelled.
- The default messages of `NotFoundHttpException` and `InternalServerErrorHttpException` are taken to be "Not Found" and "Internal Server Error". Those classes are not part of this model.
- Configuration values are modelled as null, booleans, integers or strings. Floats, arrays and objects are not modelled.
- The class lookup: only `class_exists` may throw, through an autoloader. `is_a(..., true)` is taken to load nothing further once `class_exists` has loaded the class.

=== FILE: default_http_error_handler.dfy ===
/** `DefaultHttpErrorHandler::handle`: renders the error template and wraps the
    text in a response carrying the exception's code and message. */
module DefaultHttpErrorHandler {
  import opened Wrappers
  import opened Messages

  /** The template the default handler renders. */
  const ErrorTemplate: string := "@Berlioz-HttpCore/Twig/Http/error.html.twig"

  /** What the templating engine does with a template and the exception bound
      in it: the rendered text, or the throwable it raises. */
  datatype Rendering = Rendered(text: string) | RenderFails(failure: Throwable)

  /** The templating engine, a deterministic function of the template name and
      the exception variable. */
  type Renderer = (string, HttpException) -> Rendering

  /** The handler's response for `e`, or the rendering failure, which is not caught. */
  function Handle(e: HttpException, render: Renderer): (r: Result<Response, Throwable>)
    ensures r.Ok? <==> render(ErrorTemplate, e).Rendered?
    ensures r.Ok? ==> r.value.status == e.code
    ensures r.Ok? ==> r.value.reason == e.message
    ensures r.Ok? ==> r.value.body == render(ErrorTemplate, e).text
    ensures r.Ok? ==> r.value.headers == map[]
    ensures r.Err? ==> r.error == render(ErrorTemplate, e).failure
  {
    match render(ErrorTemplate, e)
    case Rendered(text) => Ok(Response(e.code, e.message, map[], text))
    case RenderFails(t) => Err(t)
  }
}

=== FILE: dispatch_properties.dfy ===
/** Properties of `HttpApp::handle` over all collaborator outcomes, and a
    second, table-driven definition of the controller lifecycle that the
    straight-line model is proved equal to. */
module DispatchProperties {
  import opened Wrappers
  import opened Messages
  import opened HttpErrorFallback
  import opened HttpDispatch
  import DefaultHttpErrorHandler

  // ---------------------------------------------------------------------
  // Reference lifecycle: a list of steps and one rule for running a step
  // ---------------------------------------------------------------------

  /** One lifecycle step: the method, whether it runs only on a 2xx working
      status, and whether a non-Response value becomes the body. */
  datatype Step = Step(stage: Stage, invoke: Method, gated: bool, valueIsBody: bool)

  function PreSteps(c: Controller): seq<Step>
  {
    if c.pre.Some? then [Step(PreHook, c.pre.value, false, false)] else []
  }

  function MainStep(c: Controller): Step
  {
    Step(MainMethod, c.main, true, true)
  }

  function PostSteps(c: Controller): seq<Step>
  {
    if c.post.Some? then [Step(PostHook, c.post.value, false, false)] else []
  }

  /** The controller's steps in order: `_b_pre` if present, the main method,
      `_b_post` if present. */
  function Lifecycle(c: Controller): (steps: seq<Step>)
    ensures 1 <= |steps| <= 3
  {
    PreSteps(c) + [MainStep(c)] + PostSteps(c)
  }

  /** The working response after a step's call returned normally. */
  function Adopt(step: Step, call: Call, working: Response): Response
    requires !call.Raises?
  {
    match call
    case ReturnsResponse(r) => r
    case ReturnsValue(v) => if step.valueIsBody then working.WithBody(v) else working
  }

  /** Runs the steps in order from a working response. */
  function RunSteps(steps: seq<Step>, working: Response): (run: Run)
    ensures |run.trace| <= |steps|
    decreases |steps|
  {
    if steps == [] then Run(Ok(working), [])
    else
      var step := steps[0];
      if step.gated && !IsSuccess(working.status) then RunSteps(steps[1..], working)
      else
        var call := step.invoke(working);
        if call.Raises? then Run(Err(call.failure), [step.stage])
        else
          var rest := RunSteps(steps[1..], Adopt(step, call, working));
          Run(rest.result, [step.stage] + rest.trace)
  }

  /** `failure` is what the call of a step with that stage raised, on some
      working response. */
  ghost predicate RaisedBy(steps: seq<Step>, stage: Stage, failure: Throwable)
  {
    exists j, w: Response :: 0 <= j < |steps| && steps[j].stage == stage && steps[j].invoke(w) == Raises(failure)
  }

  /** Every stage a run traces belongs to one of its steps. */
  lemma {:induction false} RunStepsTraceStages(steps: seq<Step>, working: Response)
    ensures var run := RunSteps(steps, working);
      forall k :: 0 <= k < |run.trace| ==> exists j :: 0 <= j < |steps| && steps[j].stage == run.trace[k]
    decreases |steps|
  {
    if steps != [] {
      var step := steps[0];
      var run := RunSteps(steps, working);
      if step.gated && !IsSuccess(working.status) {
        RunStepsTraceStages(steps[1..], working);
        assert run == RunSteps(steps[1..], working);
        forall k | 0 <= k < |run.trace|
          ensures exists j :: 0 <= j < |steps| && steps[j].stage == run.trace[k]
        {
          assert exists j :: 0 <= j < |steps[1..]| && steps[1..][j].stage == RunSteps(steps[1..], working).trace[k];
          var j :| 0 <= j < |steps[1..]| && steps[1..][j].stage == run.trace[k];
          assert steps[j + 1].stage == run.trace[k];
        }
      } else if !step.invoke(working).Raises? {
        var next := Adopt(step, step.invoke(working), working);
        var rest := RunSteps(steps[1..], next);
        RunStepsTraceStages(steps[1..], next);
        assert var r := RunSteps(steps[1..], next); forall i :: 0 <= i < |r.trace| ==> exists j :: 0 <= j < |steps[1..]| && steps[1..][j].stage == r.trace[i];
        assert run.trace == [step.stage] + rest.trace;
        forall k | 0 <= k < |run.trace|
          ensures exists j :: 0 <= j < |steps| && steps[j].stage == run.trace[k]
        {
          if k == 0 {
            assert steps[0].stage == run.trace[k];
          } else {
            assert 0 <= k - 1 < |rest.trace|;
            assert exists j :: 0 <= j < |steps[1..]| && steps[1..][j].stage == rest.trace[k - 1];
            var j :| 0 <= j < |steps[1..]| && steps[1..][j].stage == rest.trace[k - 1];
            assert steps[j + 1].stage == run.trace[k];
          }
        }
      } else {
        assert steps[0].stage == run.trace[0];
      }
    }
  }

  /** A failed run's last traced stage is that of a step whose call raised
      exactly the run's throwable. */
  lemma {:induction false} RunStepsLastStageRaised(steps: seq<Step>, working: Response)
    ensures var run := RunSteps(steps, working);
      run.result.Err? ==> run.trace != [] && RaisedBy(steps, run.trace[|run.trace| - 1], run.result.error)
    decreases |steps|
  {
    if steps != [] {
      var step := steps[0];
      var run := RunSteps(steps, working);
      if step.gated && !IsSuccess(working.status) {
        RunStepsLastStageRaised(steps[1..], working);
        if run.result.Err? {
          var j, w :| 0 <= j < |steps[1..]| && steps[1..][j].stage == run.trace[|run.trace| - 1]
            && steps[1..][j].invoke(w) == Raises(run.result.error);
          assert steps[j + 1].invoke(w) == Raises(run.result.error);
        }
      } else if !step.invoke(working).Raises? {
        var next := Adopt(step, step.invoke(working), working);
        var rest := RunSteps(steps[1..], next);
        RunStepsLastStageRaised(steps[1..], next);
        assert run.trace == [step.stage] + rest.trace;
        if run.result.Err? {
          var j, w :| 0 <= j < |steps[1..]| && steps[1..][j].stage == rest.trace[|rest.trace| - 1]
            && steps[1..][j].invoke(w) == Raises(rest.result.error);
          assert steps[j + 1].stage == run.trace[|run.trace| - 1];
          assert steps[j + 1].invoke(w) == Raises(run.result.error);
        }
      } else {
        assert steps[0].stage == run.trace[0];
        assert steps[0].invoke(working) == Raises(run.result.error);
      }
    }
  }

  /** A run stops at the step that raised: every traced stage belongs to a
      step, and a failed run's last traced stage is that of a step whose call
      raised exactly the run's throwable. */
  lemma {:induction false} RunStepsStopsAtFailure(steps: seq<Step>, working: Response)
    ensures var run := RunSteps(steps, working);
      forall k :: 0 <= k < |run.trace| ==> exists j :: 0 <= j < |steps| && steps[j].stage == run.trace[k]
    ensures var run := RunSteps(steps, working);
      run.result.Err? ==> run.trace != [] && RaisedBy(steps, run.trace[|run.trace| - 1], run.result.error)
  {
    RunStepsTraceStages(steps, working);
    RunStepsLastStageRaised(steps, working);
  }

  /** The post-hook step alone behaves as `RunHook`. */
  lemma PostStepIsHook(c: Controller, working: Response)
    ensures RunSteps(PostSteps(c), working) == RunHook(c.post, PostHook, working)
  {
    if c.post.Some? && !c.post.value(working).Raises? {
      var steps := PostSteps(c);
      assert steps[1..] == [];
      var next := Adopt(steps[0], c.post.value(working), working);
      assert RunSteps(steps[1..], next) == Run(Ok(next), []);
    }
  }

  /** The main step followed by the post-hook step behaves as `RunMain` then `RunHook`. */
  lemma MainStepIsGatedMain(c: Controller, working: Response)
    ensures var main := RunMain(c.main, working);
      RunSteps([MainStep(c)] + PostSteps(c), working) ==
        if main.result.Err? then main
        else
          var post := RunHook(c.post, PostHook, main.result.value);
          Run(post.result, main.trace + post.trace)
  {
    var steps := [MainStep(c)] + PostSteps(c);
    assert steps[1..] == PostSteps(c);
    var main := RunMain(c.main, working);
    if main.result.Ok? {
      PostStepIsHook(c, main.result.value);
    }
  }

  /** The pre-hook step, when present, runs first and hands its working
      response to the remaining steps. */
  lemma PreStepIsHook(c: Controller, rest: seq<Step>, working: Response)
    ensures var pre := RunHook(c.pre, PreHook, working);
      RunSteps(PreSteps(c) + rest, working) ==
        if pre.result.Err? then pre
        else
          var after := RunSteps(rest, pre.result.value);
          Run(after.result, pre.trace + after.trace)
  {
    if c.pre.Some? {
      var steps := PreSteps(c) + rest;
      assert steps[1..] == rest;
    } else {
      assert PreSteps(c) + rest == rest;
    }
  }

  /** The table-driven lifecycle, run through the pre-hook step: the
      pre-hook's failure, or the rest of the steps from its working response. */
  lemma LifecycleAfterPreHook(c: Controller)
    ensures var pre := RunHook(c.pre, PreHook, EmptyResponse);
      var steps := [MainStep(c)] + PostSteps(c);
      RunSteps(Lifecycle(c), EmptyResponse) ==
        if pre.result.Err? then pre
        else Run(RunSteps(steps, pre.result.value).result, pre.trace + RunSteps(steps, pre.result.value).trace)
  {
    var rest := [MainStep(c)] + PostSteps(c);
    assert Lifecycle(c) == PreSteps(c) + rest;
    PreStepIsHook(c, rest, EmptyResponse);
  }

  /** The lifecycle past a pre-hook that returned normally: the remaining
      steps run from its working response. */
  lemma LifecyclePastPreHook(c: Controller)
    requires RunHook(c.pre, PreHook, EmptyResponse).result.Ok?
    ensures var w := RunHook(c.pre, PreHook, EmptyResponse).result.value;
      var rest := RunSteps([MainStep(c)] + PostSteps(c), w);
      RunSteps(Lifecycle(c), EmptyResponse) == Run(rest.result, RunHook(c.pre, PreHook, EmptyResponse).trace + rest.trace)
  {
    LifecycleAfterPreHook(c);
  }

  /** The lifecycle when the pre-hook throws. */
  lemma LifecyclePreHookFails(c: Controller)
    requires RunHook(c.pre, PreHook, EmptyResponse).result.Err?
    ensures var run := RunSteps(Lifecycle(c), EmptyResponse);
      RunController(Ok(c)) == Run(run.result, [Instantiating] + run.trace)
  {
    LifecycleAfterPreHook(c);
  }

  /** `RunController` when the gated main step throws. */
  lemma ControllerMainFails(c: Controller)
    requires RunHook(c.pre, PreHook, EmptyResponse).result.Ok?
    requires RunMain(c.main, RunHook(c.pre, PreHook, EmptyResponse).result.value).result.Err?
    ensures var pre := RunHook(c.pre, PreHook, EmptyResponse);
      var main := RunMain(c.main, pre.result.value);
      RunController(Ok(c)) == Run(main.result, [Instantiating] + (pre.trace + main.trace))
  {
  }

  /** The lifecycle when the gated main step throws. */
  lemma LifecycleMainFails(c: Controller)
    requires RunHook(c.pre, PreHook, EmptyResponse).result.Ok?
    requires RunMain(c.main, RunHook(c.pre, PreHook, EmptyResponse).result.value).result.Err?
    ensures var run := RunSteps(Lifecycle(c), EmptyResponse);
      RunController(Ok(c)) == Run(run.result, [Instantiating] + run.trace)
  {
    var pre := RunHook(c.pre, PreHook, EmptyResponse);
    var main := RunMain(c.main, pre.result.value);
    var steps := [MainStep(c)] + PostSteps(c);
    LifecyclePastPreHook(c);
    MainStepIsGatedMain(c, pre.result.value);
    assert RunSteps(steps, pre.result.value) == main;
    ControllerMainFails(c);
  }

  /** `RunController` when the pre-hook and the gated main step return normally. */
  lemma ControllerReachingPostHook(c: Controller)
    requires RunHook(c.pre, PreHook, EmptyResponse).result.Ok?
    requires RunMain(c.main, RunHook(c.pre, PreHook, EmptyResponse).result.value).result.Ok?
    ensures var pre := RunHook(c.pre, PreHook, EmptyResponse);
      var main := RunMain(c.main, pre.result.value);
      var post := RunHook(c.post, PostHook, main.result.value);
      RunController(Ok(c)) == Run(post.result, [Instantiating] + (pre.trace + (main.trace + post.trace)))
  {
  }

  /** The main and post-hook steps when the gated main step returns normally. */
  lemma MainThenPostHook(c: Controller, working: Response)
    requires RunMain(c.main, working).result.Ok?
    ensures var main := RunMain(c.main, working);
      var post := RunHook(c.post, PostHook, main.result.value);
      RunSteps([MainStep(c)] + PostSteps(c), working) == Run(post.result, main.trace + post.trace)
  {
    MainStepIsGatedMain(c, working);
  }

  /** The lifecycle when the pre-hook and the gated main step return normally. */
  lemma LifecycleReachesPostHook(c: Controller)
    requires RunHook(c.pre, PreHook, EmptyResponse).result.Ok?
    requires RunMain(c.main, RunHook(c.pre, PreHook, EmptyResponse).result.value).result.Ok?
    ensures var run := RunSteps(Lifecycle(c), EmptyResponse);
      RunController(Ok(c)) == Run(run.result, [Instantiating] + run.trace)
  {
    var pre := RunHook(c.pre, PreHook, EmptyResponse);
    var main := RunMain(c.main, pre.result.value);
    var post := RunHook(c.post, PostHook, main.result.value);
    LifecyclePastPreHook(c);
    MainThenPostHook(c, pre.result.value);
    assert RunSteps(Lifecycle(c), EmptyResponse) == Run(post.result, pre.trace + (main.trace + post.trace));
    ControllerReachingPostHook(c);
  }

  /** The straight-line controller model equals the table-driven lifecycle. */
  lemma RunControllerIsLifecycle(c: Controller)
    ensures var run := RunSteps(Lifecycle(c), EmptyResponse);
      RunController(Ok(c)) == Run(run.result, [Instantiating] + run.trace)
  {
    var pre := RunHook(c.pre, PreHook, EmptyResponse);
    if pre.result.Err? {
      LifecyclePreHookFails(c);
    } else if RunMain(c.main, pre.result.value).result.Err? {
      LifecycleMainFails(c);
    } else {
      LifecycleReachesPostHook(c);
    }
  }

  // ---------------------------------------------------------------------
  // Routing outcomes
  // ---------------------------------------------------------------------

  /** No route: the error handler gets a `NotFoundHttpException` and no
      controller step runs. */
  lemma NoRouteIsNotFound(inputs: Inputs, env: Environment)
    requires inputs.routing == NoRoute
    ensures var o := Dispatch(inputs, env);
      o.handled == Some(NotFound()) && o.trace == [Routed]
      && o.response == HandleHttpError(NotFound(), env).response
  {
  }

  /** A route without a non-empty `_class` and `_method`: the error handler
      gets an `InternalServerErrorHttpException` and no controller is built. */
  lemma MissingTargetIsInternalError(inputs: Inputs, env: Environment)
    requires inputs.routing.Matched? && !HasTarget(inputs.routing.context)
    ensures var o := Dispatch(inputs, env);
      o.handled == Some(InternalServerError(None)) && o.trace == [Routed]
  {
  }

  /** A dispatchable route with a `null` request argument fails on reading
      the `_locale` attribute, before the controller is built, and is
      answered as an internal error. */
  lemma NullRequestIsInternalError(inputs: Inputs, env: Environment)
    requires inputs.routing.Matched? && HasTarget(inputs.routing.context) && inputs.request.None?
    ensures var o := Dispatch(inputs, env);
      o.handled == Some(InternalServerError(Some(NullRequestError))) && Instantiating !in o.trace
  {
  }

  /** Building the controller is attempted exactly when the route is
      dispatchable and a request was given; only then can the locale be set. */
  predicate ReachesController(inputs: Inputs)
  {
    inputs.routing.Matched? && HasTarget(inputs.routing.context) && inputs.request.Some?
  }

  lemma ControllerOnlyOnDispatchPath(inputs: Inputs, env: Environment)
    ensures Instantiating in Dispatch(inputs, env).trace <==> ReachesController(inputs)
    ensures forall l :: LocaleSet(l) in Dispatch(inputs, env).trace <==>
      ReachesController(inputs) && "_locale" in inputs.request.value.attributes
      && l == inputs.request.value.attributes["_locale"]
  {
    var run := Pipeline(inputs);
    if ReachesController(inputs) {
      var request := inputs.request.value;
      var controller := RunController(inputs.controller);
      ControllerTraceHasNoLocale(inputs.controller);
      assert run.trace == [Routed] + LocaleStages(request) + controller.trace;
      assert run.trace[1 + |LocaleStages(request)|] == Instantiating;
    } else {
      assert run.trace == [Routed];
    }
  }

  /** The controller's own trace never sets the locale. */
  lemma ControllerTraceHasNoLocale(controller: Result<Controller, Throwable>)
    ensures forall l :: LocaleSet(l) !in RunController(controller).trace
  {
  }

  // ---------------------------------------------------------------------
  // The controller lifecycle
  // ---------------------------------------------------------------------

  /** The working response the gate tests: the pre-hook's Response if it
      returned one, else the fresh response; `None` when the pre-hook threw. */
  function AfterPreHook(c: Controller): Option<Response>
  {
    if c.pre.None? then Some(EmptyResponse)
    else match c.pre.value(EmptyResponse)
      case Raises(_) => None
      case ReturnsResponse(r) => Some(r)
      case ReturnsValue(_) => Some(EmptyResponse)
  }

  /** The main method is called: the controller was built, the pre-hook did
      not throw, and the working status it left is in [200, 300). */
  predicate MainCalled(inputs: Inputs)
  {
    ReachesController(inputs) && inputs.controller.Ok?
    && AfterPreHook(inputs.controller.value).Some?
    && IsSuccess(AfterPreHook(inputs.controller.value).value.status)
  }

  /** The main method runs exactly once when the gate holds and never otherwise. */
  lemma MainRunsOnceIffGate(inputs: Inputs)
    ensures multiset(Pipeline(inputs).trace)[MainMethod] == if MainCalled(inputs) then 1 else 0
  {
    var trace := Pipeline(inputs).trace;
    if ReachesController(inputs) {
      var c := RunController(inputs.controller);
      var locale := LocaleStages(inputs.request.value);
      assert trace == [Routed] + locale + c.trace;
      assert multiset(locale)[MainMethod] == 0;
      ControllerRunsMainOnceIffGate(inputs.controller);
    }
  }

  lemma ControllerRunsMainOnceIffGate(controller: Result<Controller, Throwable>)
    ensures multiset(RunController(controller).trace)[MainMethod] ==
      if controller.Ok? && AfterPreHook(controller.value).Some? && IsSuccess(AfterPreHook(controller.value).value.status)
      then 1 else 0
  {
    if controller.Ok? {
      var c := controller.value;
      var pre := RunHook(c.pre, PreHook, EmptyResponse);
      assert pre.result.Ok? <==> AfterPreHook(c).Some?;
      assert multiset(pre.trace)[MainMethod] == 0;
      if pre.result.Ok? {
        assert pre.result.value == AfterPreHook(c).value;
        var main := RunMain(c.main, pre.result.value);
        if main.result.Ok? {
          var post := RunHook(c.post, PostHook, main.result.value);
          assert multiset(post.trace)[MainMethod] == 0;
        }
      }
    }
  }

  /** Without a pre-hook the gate sees the fresh 200 response, so the main
      method always runs. */
  lemma NoPreHookRunsMain(inputs: Inputs, env: Environment)
    requires ReachesController(inputs) && inputs.controller.Ok? && inputs.controller.value.pre.None?
    ensures MainCalled(inputs)
    ensures MainMethod in Dispatch(inputs, env).trace
  {
  }

  /** The post-hook runs whenever it exists and nothing before it threw, whether
      or not the gate let the main method run. */
  lemma PostHookRunsEitherWay(inputs: Inputs, env: Environment)
    requires ReachesController(inputs) && inputs.controller.Ok?
    ensures var c := inputs.controller.value;
      PostHook in Dispatch(inputs, env).trace <==>
        c.post.Some? && AfterPreHook(c).Some?
        && (!IsSuccess(AfterPreHook(c).value.status) || !c.main(AfterPreHook(c).value).Raises?)
  {
    PipelineReachesPostHook(inputs);
  }

  /** The post-hook fact for the `try` block alone. */
  lemma PipelineReachesPostHook(inputs: Inputs)
    requires ReachesController(inputs) && inputs.controller.Ok?
    ensures var c := inputs.controller.value;
      PostHook in Pipeline(inputs).trace <==>
        c.post.Some? && AfterPreHook(c).Some?
        && (!IsSuccess(AfterPreHook(c).value.status) || !c.main(AfterPreHook(c).value).Raises?)
  {
    var c := inputs.controller.value;
    var pre := RunHook(c.pre, PreHook, EmptyResponse);
    var controller := RunController(inputs.controller);
    assert Pipeline(inputs).trace == [Routed] + LocaleStages(inputs.request.value) + controller.trace;
    if pre.result.Err? {
      assert controller.trace == [Instantiating] + pre.trace;
    } else if RunMain(c.main, pre.result.value).result.Err? {
      ControllerMainFails(c);
    } else {
      ControllerReachingPostHook(c);
    }
  }

  /** A pre-hook result replaces the working response only if it is a Response:
      with a status outside 2xx the main method is skipped and, without a
      post-hook, that Response is the answer. */
  lemma PreHookShortCircuits(inputs: Inputs, env: Environment, r: Response)
    requires ReachesController(inputs) && inputs.controller.Ok?
    requires var c := inputs.controller.value;
      c.pre.Some? && c.pre.value(EmptyResponse) == ReturnsResponse(r) && c.post.None?
    requires !IsSuccess(r.status)
    ensures Dispatch(inputs, env).response == r
    ensures MainMethod !in Dispatch(inputs, env).trace
  {
  }

  /** A pre-hook that returns anything but a Response leaves the fresh
      response in place, so the main method runs. */
  lemma PreHookValueIgnored(inputs: Inputs, env: Environment)
    requires ReachesController(inputs) && inputs.controller.Ok?
    requires var c := inputs.controller.value;
      c.pre.Some? && c.pre.value(EmptyResponse).ReturnsValue?
    ensures RunHook(inputs.controller.value.pre, PreHook, EmptyResponse) == Run(Ok(EmptyResponse), [PreHook])
    ensures AfterPreHook(inputs.controller.value) == Some(EmptyResponse)
    ensures MainMethod in Dispatch(inputs, env).trace
  {
  }

  /** The main method's non-Response value becomes the body; status, reason
      and headers are those of the response it was given. A Response it
      returns is the answer as is. (No post-hook, so nothing changes it after.) */
  lemma MainResultBecomesResponse(inputs: Inputs, env: Environment)
    requires MainCalled(inputs) && inputs.controller.value.post.None?
    ensures var c := inputs.controller.value;
      var w := AfterPreHook(c).value;
      var o := Dispatch(inputs, env);
      (c.main(w).ReturnsValue? ==>
        o.response.body == c.main(w).value && o.response.status == w.status
        && o.response.reason == w.reason && o.response.headers == w.headers)
      && (c.main(w).ReturnsResponse? ==> o.response == c.main(w).response)
  {
  }

  /** A post-hook result replaces the working response only if it is a Response. */
  lemma PostHookReplacesOnlyWithResponse(inputs: Inputs, env: Environment)
    requires ReachesController(inputs) && inputs.controller.Ok?
    requires inputs.controller.value.post.Some?
    requires AfterPreHook(inputs.controller.value).Some?
    ensures var c := inputs.controller.value;
      var before := RunMain(c.main, AfterPreHook(c).value).result;
      var o := Dispatch(inputs, env);
      before.Ok? ==>
        match c.post.value(before.value)
        case ReturnsResponse(r) => o.response == r && o.handled.None?
        case ReturnsValue(_) => o.response == before.value && o.handled.None?
        case Raises(t) => o.handled == Some(AsHttpException(t))
  {
  }

  // ---------------------------------------------------------------------
  // Failures
  // ---------------------------------------------------------------------

  /** A throwable from any controller step ends the lifecycle there: nothing
      after the failing step runs, and its throwable is what gets handled. */
  lemma FailureAbortsRemainingSteps(inputs: Inputs, env: Environment)
    requires ReachesController(inputs)
    ensures var o := Dispatch(inputs, env);
      (inputs.controller.Err? ==>
        o.handled == Some(AsHttpException(inputs.controller.error))
        && PreHook !in o.trace && MainMethod !in o.trace && PostHook !in o.trace)
      && (inputs.controller.Ok? && AfterPreHook(inputs.controller.value).None? ==>
        o.trace[|o.trace| - 1] == PreHook && MainMethod !in o.trace && PostHook !in o.trace
        && o.handled == Some(AsHttpException(inputs.controller.value.pre.value(EmptyResponse).failure)))
      && (MainCalled(inputs) && inputs.controller.value.main(AfterPreHook(inputs.controller.value).value).Raises? ==>
        o.trace[|o.trace| - 1] == MainMethod && PostHook !in o.trace
        && o.handled == Some(AsHttpException(inputs.controller.value.main(AfterPreHook(inputs.controller.value).value).failure)))
  {
    PipelineStopsAtFailure(inputs);
  }

  /** The same facts for the `try` block alone: the run fails with the
      failing step's own throwable and its trace ends at that step. */
  lemma PipelineStopsAtFailure(inputs: Inputs)
    requires ReachesController(inputs)
    ensures var run := Pipeline(inputs);
      (inputs.controller.Err? ==>
        run.result == Err(inputs.controller.error)
        && PreHook !in run.trace && MainMethod !in run.trace && PostHook !in run.trace)
      && (inputs.controller.Ok? && AfterPreHook(inputs.controller.value).None? ==>
        run.trace[|run.trace| - 1] == PreHook && MainMethod !in run.trace && PostHook !in run.trace
        && run.result == Err(inputs.controller.value.pre.value(EmptyResponse).failure))
      && (MainCalled(inputs) && inputs.controller.value.main(AfterPreHook(inputs.controller.value).value).Raises? ==>
        run.trace[|run.trace| - 1] == MainMethod && PostHook !in run.trace
        && run.result == Err(inputs.controller.value.main(AfterPreHook(inputs.controller.value).value).failure))
  {
  }

  /** What reaches the error handler: an `HttpException` thrown anywhere is
      handled as it is; any other throwable is wrapped as a 500 whose cause
      is the original. */
  lemma FailuresReachHandlerAsHttpExceptions(inputs: Inputs, env: Environment)
    ensures var run := Pipeline(inputs);
      var o := Dispatch(inputs, env);
      run.result.Err? ==>
        (run.result.error.Http? ==> o.handled == Some(run.result.error.exception))
        && (run.result.error.Error? ==> o.handled.value.code == 500 && o.handled.value.cause == Some(run.result.error))
  {
  }

  // ---------------------------------------------------------------------
  // The error handler as seen from dispatch
  // ---------------------------------------------------------------------

  /** When tier 1 resolves to the default handler and it renders, the answer
      carries the exception's code and message and the rendered page. */
  lemma DefaultHandlerAnswer(e: HttpException, env: Environment)
    requires SelectHandler(e, env) == Ok(DefaultHandlerClass)
    requires env.instantiate(DefaultHandlerClass).Completes? && env.serverRequest.Completes?
    requires env.render(DefaultHttpErrorHandler.ErrorTemplate, e).Rendered?
    ensures var h := HandleHttpError(e, env);
      h.tier == Configured
      && h.response == Response(e.code, e.message, map[], env.render(DefaultHttpErrorHandler.ErrorTemplate, e).text)
  {
  }

  /** An unusable configured identifier is replaced by the default handler
      transparently: tier 2's response, when it gets that far, is the same one. */
  lemma DefaultTierMatchesConfiguredDefault(e: HttpException, env: Environment)
    requires SelectHandler(e, env) == Ok(DefaultHandlerClass)
    requires ConfiguredTier(e, env).Ok? && DefaultTier(e, env).Ok?
    ensures ConfiguredTier(e, env) == DefaultTier(e, env)
  {
  }

  /** The same template fails in tier 1 and tier 2, so a default handler whose
      rendering throws always ends in the inline page. */
  lemma RenderFailureEndsInline(e: HttpException, env: Environment)
    requires env.render(DefaultHttpErrorHandler.ErrorTemplate, e).RenderFails?
    requires SelectHandler(e, env).Ok? ==> SelectHandler(e, env).value == DefaultHandlerClass
    ensures HandleHttpError(e, env).tier == Inline
    ensures HandleHttpError(e, env).response == InlineTier(e, env)
  {
  }

  /** For no route, with no handler configured and a rendering template, the
      answer is a 404 whose reason is the exception's message. */
  lemma NoRouteAnswer(inputs: Inputs, env: Environment)
    requires inputs.routing == NoRoute
    requires env.config == map[]
    requires env.instantiate(DefaultHandlerClass).Completes? && env.serverRequest.Completes?
    requires env.render(DefaultHttpErrorHandler.ErrorTemplate, NotFound()).Rendered?
    ensures Dispatch(inputs, env).response.status == 404
    ensures Dispatch(inputs, env).response.reason == NotFoundMessage
    ensures Dispatch(inputs, env).response.body == env.render(DefaultHttpErrorHandler.ErrorTemplate, NotFound()).text
  {
    DefaultHandlerAnswer(NotFound(), env);
  }
}

=== FILE: http_dispatch.dfy ===
/** `HttpApp::handle` up to the end of its outer `try`/`catch`: route the
    request, run the controller's lifecycle, and hand any failure to
    `httpErrorHandler`. */
module HttpDispatch {
  import opened Wrappers
  import opened Messages
  import opened HttpErrorFallback

  /** What a controller method call gives: a throwable, a response, or any
      other value (its string form is what a stream would receive). */
  datatype Call = Raises(failure: Throwable) | ReturnsResponse(response: Response) | ReturnsValue(value: string)

  /** A controller method, called with the working response. */
  type Method = Response -> Call

  /** A controller instance: the optional `_b_pre` and `_b_post` hooks
      (`None` when `method_exists` is false) and the route's `_method`. */
  datatype Controller = Controller(pre: Option<Method>, main: Method, post: Option<Method>)

  /** The router's answer: a throwable (from `getRouter` or `handle`), no
      route, or a route with its context. */
  datatype Routing = RouterFails(failure: Throwable) | NoRoute | Matched(context: map<string, string>)

  /** The server request, seen through its attributes. */
  datatype Request = Request(attributes: map<string, string>)

  /** Everything `handle` consults besides the error handler's environment. */
  datatype Inputs = Inputs(
    routing: Routing,
    /** the `$serverRequest` argument, which may be `null` */
    request: Option<Request>,
    /** the container's `newInstanceOf($routeContext['_class'], ...)` */
    controller: Result<Controller, Throwable>)

  /** The steps that ran, in order. A step is recorded when it is attempted,
      so `Instantiating` appears also when building the controller throws. */
  datatype Stage = Routed | LocaleSet(locale: string) | Instantiating | PreHook | MainMethod | PostHook

  /** The outcome of the `try` block: the working response or what was thrown,
      with the stages that ran. */
  datatype Run = Run(result: Result<Response, Throwable>, trace: seq<Stage>)

  /** The outcome of `handle`: the response, the stages that ran, and the
      exception handed to the error handler with the tier that answered it. */
  datatype Outcome = Outcome(response: Response, trace: seq<Stage>, handled: Option<HttpException>, tier: Option<Tier>)

  /** PHP's `empty()` on a route context entry: missing, "" or "0". */
  predicate EmptyEntry(context: map<string, string>, key: string)
  {
    key !in context || context[key] == "" || context[key] == "0"
  }

  /** A route can be dispatched only when both `_class` and `_method` are non-empty. */
  predicate HasTarget(context: map<string, string>)
  {
    !EmptyEntry(context, "_class") && !EmptyEntry(context, "_method")
  }

  /** The Error PHP raises for `$serverRequest->getAttribute(...)` when the
      request argument is `null`. */
  const NullRequestError: Throwable := Error("Call to a member function getAttribute() on null")

  /** A `_b_pre` or `_b_post` call: when the hook exists it runs, and only a
      Response it returns replaces the working response. */
  function RunHook(hook: Option<Method>, stage: Stage, working: Response): (run: Run)
    ensures hook.None? ==> run == Run(Ok(working), [])
    ensures hook.Some? ==> run.trace == [stage]
    ensures run.result.Err? <==> hook.Some? && hook.value(working).Raises?
    ensures run.result.Ok? && run.result.value != working ==> hook.Some? && hook.value(working) == ReturnsResponse(run.result.value)
  {
    match hook
    case None => Run(Ok(working), [])
    case Some(m) =>
      match m(working)
      case Raises(t) => Run(Err(t), [stage])
      case ReturnsResponse(r) => Run(Ok(r), [stage])
      case ReturnsValue(_) => Run(Ok(working), [stage])
  }

  /** The main method, called only when the working status is 2xx. A
      Response it returns replaces the working response; any other value
      becomes the body, keeping status, reason and headers. */
  function RunMain(main: Method, working: Response): (run: Run)
    ensures MainMethod in run.trace <==> IsSuccess(working.status)
    ensures !IsSuccess(working.status) ==> run == Run(Ok(working), [])
    ensures run.result.Ok? && main(working).ReturnsValue? && IsSuccess(working.status) ==>
      var r := run.result.value;
      r.body == main(working).value && r.status == working.status && r.reason == working.reason && r.headers == working.headers
  {
    if IsSuccess(working.status) then
      match main(working)
      case Raises(t) => Run(Err(t), [MainMethod])
      case ReturnsResponse(r) => Run(Ok(r), [MainMethod])
      case ReturnsValue(v) => Run(Ok(working.WithBody(v)), [MainMethod])
    else Run(Ok(working), [])
  }

  /** Lines 126-183: instantiate, pre-hook, gated main method, post-hook; a
      throwable at any step skips the steps after it. */
  function RunController(controller: Result<Controller, Throwable>): (run: Run)
    ensures run.trace != [] && run.trace[0] == Instantiating
    ensures controller.Err? ==> run == Run(Err(controller.error), [Instantiating])
  {
    match controller
    case Err(t) => Run(Err(t), [Instantiating])
    case Ok(c) =>
      var pre := RunHook(c.pre, PreHook, EmptyResponse);
      match pre.result
      case Err(t) => Run(Err(t), [Instantiating] + pre.trace)
      case Ok(afterPre) =>
        var main := RunMain(c.main, afterPre);
        match main.result
        case Err(t) => Run(Err(t), [Instantiating] + (pre.trace + main.trace))
        case Ok(afterMain) =>
          var post := RunHook(c.post, PostHook, afterMain);
          Run(post.result, [Instantiating] + (pre.trace + (main.trace + post.trace)))
  }

  /** The `_locale` attribute when the request has one. */
  function LocaleStages(request: Request): seq<Stage>
  {
    if "_locale" in request.attributes then [LocaleSet(request.attributes["_locale"])] else []
  }

  /** Lines 108-192: the body of the outer `try`. */
  function Pipeline(inputs: Inputs): (run: Run)
    ensures run.trace != [] && run.trace[0] == Routed
    ensures !inputs.routing.Matched? ==> run.trace == [Routed] && run.result.Err?
  {
    match inputs.routing
    case RouterFails(t) => Run(Err(t), [Routed])
    case NoRoute => Run(Err(Http(NotFound())), [Routed])
    case Matched(context) =>
      if !HasTarget(context) then Run(Err(Http(InternalServerError(None))), [Routed])
      else match inputs.request
        case None => Run(Err(NullRequestError), [Routed])
        case Some(request) =>
          var controller := RunController(inputs.controller);
          Run(controller.result, [Routed] + LocaleStages(request) + controller.trace)
  }

  /** Lines 194-196: an `HttpException` passes through unchanged, anything else
      becomes an `InternalServerErrorHttpException` with the original as cause. */
  function AsHttpException(t: Throwable): (e: HttpException)
    ensures t.Http? ==> e == t.exception
    ensures t.Error? ==> e.code == 500 && e.cause == Some(t)
  {
    match t
    case Http(e) => e
    case Error(_) => InternalServerError(Some(t))
  }

  /** `handle` through line 199: the working response when the pipeline
      completes, otherwise the error handler's response for the failure. */
  function Dispatch(inputs: Inputs, env: Environment): (o: Outcome)
    ensures o.trace == Pipeline(inputs).trace
    ensures Pipeline(inputs).result.Ok? <==> o.handled.None?
    ensures o.handled.None? ==> o.response == Pipeline(inputs).result.value && o.tier.None?
    ensures o.handled.Some? ==>
      o.handled.value == AsHttpException(Pipeline(inputs).result.error) && o.tier.Some?
      && Handled(o.response, o.tier.value) == HandleHttpError(o.handled.value, env)
  {
    var run := Pipeline(inputs);
    match run.result
    case Ok(r) => Outcome(r, run.trace, None, None)
    case Err(t) =>
      var e := AsHttpException(t);
      var h := HandleHttpError(e, env);
      Outcome(h.response, run.trace, Some(e), Some(h.tier))
  }
}

=== FILE: http_error_fallback.dfy ===
/** `HttpApp::httpErrorHandler`: turns an `HttpException` into a response through
    three tiers, each tried only when the previous one threw:
      1. the handler class configured for the code (or the default one),
         built by the service container;
      2. a `DefaultHttpErrorHandler` built directly;
      3. an inline HTML page with status 500. */
module HttpErrorFallback {
  import opened Wrappers
  import opened Strings
  import opened Messages
  import DefaultHttpErrorHandler

  /** A configuration value, with PHP's notion of emptiness and truth. */
  datatype Scalar = Null | Flag(flag: bool) | Number(number: int) | Text(text: string)
  {
    /** PHP's `empty()`: null, false, 0, "" and "0". */
    predicate IsEmpty()
    {
      match this
      case Null => true
      case Flag(b) => !b
      case Number(n) => n == 0
      case Text(s) => s == "" || s == "0"
    }
  }

  /** What reading one configuration key gives: a value, or a throwable. A key
      missing from the configuration map is absent. */
  datatype ConfigRead = Value(value: Scalar) | ReadFails(failure: Throwable)

  /** A call into code that is not part of this model, observed only by whether it throws. */
  datatype Effect = Completes | Fails(failure: Throwable)

  /** What `class_exists` finds for an identifier it is given as a string:
      a loaded class, which `is_a(..., HttpErrorHandler::class, true)` then
      accepts or not, or an autoloader that throws. */
  datatype ClassLookup = Loaded(isHandler: bool) | AutoloadFails(failure: Throwable)

  /** Which tier produced the response. */
  datatype Tier = Configured | Default | Inline

  /** The collaborators the error handler consults. */
  datatype Environment = Environment(
    /** configuration: dotted key to what reading it gives */
    config: map<string, ConfigRead>,
    /** what looking a class up gives; an identifier missing from the map
        names no class, and the autoloaders find none */
    classes: map<string, ClassLookup>,
    /** the container's `newInstanceOf` for a class identifier */
    instantiate: string -> Effect,
    /** `handle()` of a configured handler class other than the default one */
    invokeHandler: (string, HttpException) -> Result<Response, Throwable>,
    /** `getRouter()->getServerRequest()` */
    serverRequest: Effect,
    /** `new DefaultHttpErrorHandler($this)` */
    constructDefault: Effect,
    /** the templating engine */
    render: DefaultHttpErrorHandler.Renderer,
    /** the exception's string form `"{$e}"` (class, message, stack trace);
        an exception class may override `__toString` with one that throws */
    describe: HttpException -> Result<string, Throwable>)

  /** The result of handling: the response and the tier that made it. */
  datatype Handled = Handled(response: Response, tier: Tier)

  /** The identifier of `DefaultHttpErrorHandler::class`. */
  const DefaultHandlerClass: string := "Berlioz\\HttpCore\\Http\\DefaultHttpErrorHandler"

  const ErrorsPrefix: string := "berlioz.http.errors."
  const DefaultErrorsKey: string := "berlioz.http.errors.default"
  const DebugKey: string := "berlioz.debug"

  /** `sprintf('berlioz.http.errors.%s', $code)`. */
  function ErrorsKey(code: int): string
  {
    ErrorsPrefix + IntToDecimal(code)
  }

  /** Distinct codes consult distinct configuration keys, and no code's key is the default's. */
  lemma ErrorsKeyInjective(a: int, b: int)
    ensures ErrorsKey(a) == ErrorsKey(b) <==> a == b
    ensures ErrorsKey(a) != DefaultErrorsKey
  {
    var ka, kb := ErrorsKey(a), ErrorsKey(b);
    if ka == kb {
      assert IntToDecimal(a) == ka[|ErrorsPrefix|..] == kb[|ErrorsPrefix|..] == IntToDecimal(b);
      IntToDecimalInjective(a, b);
    }
    var d := IntToDecimal(a);
    assert ka[|ErrorsPrefix|] == d[0];
    assert DefaultErrorsKey[|ErrorsPrefix|] == 'd';
    assert a >= 0 ==> IsDigit(d[0]);
  }

  /** `$config->get($key, $default)`: the stored value, `default` when the key
      is absent, or the throwable the read raises. */
  function ConfigGet(config: map<string, ConfigRead>, key: string, default: Scalar): (r: Result<Scalar, Throwable>)
    ensures key !in config ==> r == Ok(default)
    ensures key in config && config[key].Value? ==> r == Ok(config[key].value)
    ensures r.Err? <==> key in config && config[key].ReadFails?
  {
    if key !in config then Ok(default)
    else match config[key]
      case Value(v) => Ok(v)
      case ReadFails(t) => Err(t)
  }

  /** The TypeError `class_exists` raises under strict types when given a
      value of the named type instead of a string. */
  function ClassExistsTypeError(given: string): Throwable
  {
    Error("class_exists(): Argument #1 ($class) must be of type string, " + given + " given")
  }

  /** An identifier names a usable handler: an existing class implementing
      `HttpErrorHandler`. */
  predicate IsHandlerClass(cls: string, classes: map<string, ClassLookup>)
  {
    cls in classes && classes[cls] == Loaded(true)
  }

  /** Looking the identifier up runs an autoloader that throws. */
  predicate LookupFails(cls: string, classes: map<string, ClassLookup>)
  {
    cls in classes && classes[cls].AutoloadFails?
  }

  /** The validity check on a configured identifier: an empty, unknown or
      non-handler identifier becomes the default handler class; a non-empty
      value that is not a string makes `class_exists` throw, and so does an
      autoloader that throws while looking the identifier up. */
  function ValidHandler(id: Scalar, classes: map<string, ClassLookup>): (r: Result<string, Throwable>)
    ensures id.IsEmpty() ==> r == Ok(DefaultHandlerClass)
    ensures r.Err? <==> !id.IsEmpty() && (!id.Text? || LookupFails(id.text, classes))
    ensures r.Err? && id.Text? ==> r.error == classes[id.text].failure
    ensures r.Ok? && r.value != DefaultHandlerClass ==> id == Text(r.value) && IsHandlerClass(r.value, classes)
    ensures id.Text? && !id.IsEmpty() && IsHandlerClass(id.text, classes) ==> r == Ok(id.text)
  {
    match id
    case Null => Ok(DefaultHandlerClass)
    case Flag(b) => if b then Err(ClassExistsTypeError("bool")) else Ok(DefaultHandlerClass)
    case Number(n) => if n != 0 then Err(ClassExistsTypeError("int")) else Ok(DefaultHandlerClass)
    case Text(s) =>
      if id.IsEmpty() || s !in classes then Ok(DefaultHandlerClass)
      else match classes[s]
        case AutoloadFails(t) => Err(t)
        case Loaded(isHandler) => if isHandler then Ok(s) else Ok(DefaultHandlerClass)
  }

  /** The handler class for `e`: the value of `errors.<code>`, or of
      `errors.default` when that key is absent, validated. The default's key is
      read first, as PHP evaluates the argument before the outer call. */
  function SelectHandler(e: HttpException, env: Environment): (r: Result<string, Throwable>)
    ensures r.Ok? ==> r.value == DefaultHandlerClass || IsHandlerClass(r.value, env.classes)
    ensures DefaultErrorsKey in env.config && env.config[DefaultErrorsKey].ReadFails? ==> r.Err?
    ensures ErrorsKey(e.code) in env.config && env.config[ErrorsKey(e.code)].ReadFails? ==> r.Err?
  {
    match ConfigGet(env.config, DefaultErrorsKey, Null)
    case Err(t) => Err(t)
    case Ok(fallback) =>
      match ConfigGet(env.config, ErrorsKey(e.code), fallback)
      case Err(t) => Err(t)
      case Ok(id) => ValidHandler(id, env.classes)
  }

  /** The identifier the configuration names for `e`, when both reads succeed. */
  function ConfiguredIdentifier(e: HttpException, env: Environment): Option<Scalar>
  {
    var k := ErrorsKey(e.code);
    if k in env.config && env.config[k].ReadFails? then None
    else if DefaultErrorsKey in env.config && env.config[DefaultErrorsKey].ReadFails? then None
    else if k in env.config then Some(env.config[k].value)
    else if DefaultErrorsKey in env.config then Some(env.config[DefaultErrorsKey].value)
    else Some(Null)
  }

  /** Handler selection, stated against the configuration itself: the chosen
      class is the configured identifier when that names an existing handler
      class and the default handler otherwise; selection fails only when a read
      fails, the identifier is a non-empty value that is not a string, or
      looking the identifier up throws. */
  lemma SelectionFollowsConfiguration(e: HttpException, env: Environment)
    ensures SelectHandler(e, env).Err? <==>
      ConfiguredIdentifier(e, env).None?
      || (!ConfiguredIdentifier(e, env).value.IsEmpty()
          && (!ConfiguredIdentifier(e, env).value.Text? || LookupFails(ConfiguredIdentifier(e, env).value.text, env.classes)))
    ensures ConfiguredIdentifier(e, env).Some? && SelectHandler(e, env).Ok? ==>
      var id := ConfiguredIdentifier(e, env).value;
      SelectHandler(e, env).value ==
        if id.Text? && !id.IsEmpty() && IsHandlerClass(id.text, env.classes)
        then id.text else DefaultHandlerClass
  {
  }

  /** Tier 1 (lines 220-241): select, instantiate through the container, fetch
      the request, invoke `handle`. */
  function ConfiguredTier(e: HttpException, env: Environment): (r: Result<Response, Throwable>)
    ensures r.Ok? ==>
      (SelectHandler(e, env).Ok?
       && env.instantiate(SelectHandler(e, env).value).Completes? && env.serverRequest.Completes?)
    ensures (SelectHandler(e, env).Ok? && env.instantiate(SelectHandler(e, env).value).Completes?
             && env.serverRequest.Completes?) ==>
        var cls := SelectHandler(e, env).value;
        (cls == DefaultHandlerClass ==> r == DefaultHttpErrorHandler.Handle(e, env.render))
        && (cls != DefaultHandlerClass ==> r == env.invokeHandler(cls, e))
    ensures SelectHandler(e, env).Err? ==> r == Err(SelectHandler(e, env).error)
  {
    match SelectHandler(e, env)
    case Err(t) => Err(t)
    case Ok(cls) =>
      match env.instantiate(cls)
      case Fails(t) => Err(t)
      case Completes =>
        match env.serverRequest
        case Fails(t) => Err(t)
        case Completes =>
          if cls == DefaultHandlerClass then DefaultHttpErrorHandler.Handle(e, env.render)
          else env.invokeHandler(cls, e)
  }

  /** Tier 2 (lines 244-245): a `DefaultHttpErrorHandler` built directly. */
  function DefaultTier(e: HttpException, env: Environment): (r: Result<Response, Throwable>)
    ensures r.Ok? <==>
      (env.constructDefault.Completes? && env.serverRequest.Completes?
       && env.render(DefaultHttpErrorHandler.ErrorTemplate, e).Rendered?)
    ensures r.Ok? ==>
      r.value == Response(e.code, e.message, map[], env.render(DefaultHttpErrorHandler.ErrorTemplate, e).text)
  {
    match env.constructDefault
    case Fails(t) => Err(t)
    case Completes =>
      match env.serverRequest
      case Fails(t) => Err(t)
      case Completes => DefaultHttpErrorHandler.Handle(e, env.render)
  }

  /** Whether the inline page shows the exception: `berlioz.debug` is truthy;
      a read that throws counts as false. */
  function DebugEnabled(env: Environment): (on: bool)
    ensures DebugKey !in env.config ==> !on
    ensures DebugKey in env.config && env.config[DebugKey].ReadFails? ==> !on
    ensures DebugKey in env.config && env.config[DebugKey].Value? ==>
      (on <==> !env.config[DebugKey].value.IsEmpty())
  {
    match ConfigGet(env.config, DebugKey, Flag(false))
    case Err(_) => false
    case Ok(v) => !v.IsEmpty()
  }

  const PageHead: string := "<html lang='en'>" + "<body>" + "<h1>Internal Server Error</h1>"
  const PageTail: string := "</body>" + "</html>"
  const GenericMessage: string := "Looks like we're having some server issues."

  /** The page's own markup around the exception text never contains the
      sentence's first letter, and the sentence contains no `<`. */
  lemma MarkupFacts()
    ensures Avoids(PageHead + "<pre>", 'L') && Avoids("</pre>" + PageTail, 'L')
    ensures Avoids(PageHead + PageTail, 'L')
    ensures Avoids(GenericMessage, '<') && GenericMessage[0] == 'L'
  {
    AvoidsConcat("<html lang='en'>", "<body>", 'L');
    AvoidsConcat("<html lang='en'>" + "<body>", "<h1>Internal Server Error</h1>", 'L');
    AvoidsConcat(PageHead, "<pre>", 'L');
    AvoidsConcat("</body>", "</html>", 'L');
    AvoidsConcat("</pre>", PageTail, 'L');
    AvoidsConcat(PageHead, PageTail, 'L');
  }

  /** The inline page's body: the exception text in debug mode, the generic
      sentence otherwise. When the string conversion throws in debug mode, the
      `catch` at line 256 swallows it after `$debug` was set, so the page holds
      neither. */
  function InlinePageBody(debug: bool, text: Result<string, Throwable>): string
  {
    if !debug then PageHead + "<p>" + GenericMessage + "</p>" + PageTail
    else match text
      case Ok(t) => PageHead + "<pre>" + t + "</pre>" + PageTail
      case Err(_) => PageHead + PageTail
  }

  /** Tier 3 (lines 247-266): built from literals and in-memory data only. */
  function InlineTier(e: HttpException, env: Environment): (r: Response)
    ensures r.status == 500 && r.headers == map[] && r.reason == ""
  {
    TextResponse(InlinePageBody(DebugEnabled(env), env.describe(e)), 500)
  }

  /** Outside debug mode the inline page discloses nothing about the exception:
      every exception gets the same page. */
  lemma InlinePageHidesException(e1: HttpException, e2: HttpException, env: Environment)
    requires !DebugEnabled(env)
    ensures InlineTier(e1, env) == InlineTier(e2, env)
  {
  }

  /** In debug mode the inline page shows the exception's string form, unless
      producing it throws; then the page is the bare markup. */
  lemma InlinePageShowsException(e: HttpException, env: Environment)
    requires DebugEnabled(env)
    ensures env.describe(e).Ok? ==> Contains(InlineTier(e, env).body, env.describe(e).value)
    ensures env.describe(e).Err? ==> InlineTier(e, env).body == PageHead + PageTail
  {
    if env.describe(e).Err? {
      return;
    }
    var text := env.describe(e).value;
    ContainsMiddle(PageHead + "<pre>", text, "</pre>" + PageTail);
    assert InlineTier(e, env).body == (PageHead + "<pre>") + text + ("</pre>" + PageTail);
  }

  /** Outside debug mode, including when reading the flag throws, the inline
      page shows the generic sentence. */
  lemma InlinePageShowsGeneric(e: HttpException, env: Environment)
    requires !DebugEnabled(env)
    ensures Contains(InlineTier(e, env).body, GenericMessage)
  {
    ContainsMiddle(PageHead + "<p>", GenericMessage, "</p>" + PageTail);
    assert InlineTier(e, env).body == (PageHead + "<p>") + GenericMessage + ("</p>" + PageTail);
  }

  /** In debug mode the generic sentence appears only if the exception's text
      carries it: the page's own markup never forms it. */
  lemma DebugPageOmitsGeneric(e: HttpException, env: Environment)
    requires DebugEnabled(env)
    requires env.describe(e).Ok? ==> !Contains(env.describe(e).value, GenericMessage)
    ensures !Contains(InlineTier(e, env).body, GenericMessage)
  {
    MarkupFacts();
    if env.describe(e).Err? {
      BarePageOmitsGeneric();
      return;
    }
    var text := env.describe(e).value;
    var pre := PageHead + "<pre>";
    var post := "</pre>" + PageTail;
    var page := InlineTier(e, env).body;
    assert page == pre + text + post;
    if Contains(page, GenericMessage) {
      var i: nat :| i <= |page| && OccursAt(page, GenericMessage, i);
      var g := GenericMessage;
      assert page[i] == g[0] by { assert page[i..i + |g|][0] == page[i]; }
      if i < |pre| {
        assert false;
      } else if i >= |pre| + |text| {
        assert false;
      } else if i + |g| > |pre| + |text| {
        // the occurrence would run into the `<` that opens `</pre>`
        OccurrenceChar(page, g, i, |pre| + |text| - i);
        assert false;
      } else {
        OccurrenceInside(pre, text, post, g, i);
        assert false;
      }
    }
  }

  /** The bare page left when the string conversion throws has no trace of
      the generic sentence. */
  lemma BarePageOmitsGeneric()
    ensures !Contains(PageHead + PageTail, GenericMessage)
  {
    MarkupFacts();
  }

  /** Both directions together: the inline page carries the generic sentence
      exactly when debug is off or the exception's text itself carries it. */
  lemma InlinePageGenericIff(e: HttpException, env: Environment)
    ensures Contains(InlineTier(e, env).body, GenericMessage) <==>
      !DebugEnabled(env) || (env.describe(e).Ok? && Contains(env.describe(e).value, GenericMessage))
  {
    if !DebugEnabled(env) {
      InlinePageShowsGeneric(e, env);
    } else if env.describe(e).Ok? && Contains(env.describe(e).value, GenericMessage) {
      var text := env.describe(e).value;
      var i: nat :| i <= |text| && OccursAt(text, GenericMessage, i);
      var pre := PageHead + "<pre>";
      var page := InlineTier(e, env).body;
      assert page == pre + text + ("</pre>" + PageTail);
      assert page[|pre| + i..|pre| + i + |GenericMessage|] == text[i..i + |GenericMessage|];
      assert OccursAt(page, GenericMessage, |pre| + i);
    } else {
      DebugPageOmitsGeneric(e, env);
    }
  }

  /** `httpErrorHandler`: always a response; tier 2 only after tier 1 threw,
      tier 3 only after tier 2 threw. */
  function HandleHttpError(e: HttpException, env: Environment): (h: Handled)
    ensures h.tier == Configured <==> ConfiguredTier(e, env).Ok?
    ensures h.tier == Default <==> ConfiguredTier(e, env).Err? && DefaultTier(e, env).Ok?
    ensures h.tier == Inline <==> ConfiguredTier(e, env).Err? && DefaultTier(e, env).Err?
    ensures h.tier == Configured ==> h.response == ConfiguredTier(e, env).value
    ensures h.tier == Default ==> h.response == DefaultTier(e, env).value
    ensures h.tier == Inline ==> h.response == InlineTier(e, env)
  {
    match ConfiguredTier(e, env)
    case Ok(r) => Handled(r, Configured)
    case Err(_) =>
      match DefaultTier(e, env)
      case Ok(r) => Handled(r, Default)
      case Err(_) => Handled(InlineTier(e, env), Inline)
  }
}

=== FILE: messages.dfy ===
/** The values that flow through dispatch: PSR-7 responses, HTTP exceptions and
    the other throwables PHP code may raise. Only the observable parts are kept. */
module Messages {
  import opened Wrappers

  /** Header name to its list of values, as PSR-7 `getHeaders()` reports them. */
  type Headers = map<string, seq<string>>

  /** An HTTP response: status code, reason phrase, headers and body text.
      An empty reason phrase stands for "the message library's default phrase". */
  datatype Response = Response(status: int, reason: string, headers: Headers, body: string)
  {
    /** PSR-7 `withBody`: a copy whose body is replaced and nothing else. */
    function WithBody(text: string): (r: Response)
      ensures r.body == text
      ensures r.status == status && r.reason == reason && r.headers == headers
    {
      this.(body := text)
    }
  }

  /** `new Response`: status 200, no reason phrase, no headers, empty body. */
  const EmptyResponse: Response := Response(200, "", map[], "")

  /** `new Response($str, $code)`: a response built from a body and a status only. */
  function TextResponse(text: string, status: int): (r: Response)
    ensures r.body == text && r.status == status
    ensures r.headers == map[] && r.reason == ""
  {
    Response(status, "", map[], text)
  }

  /** A status code in the success class 2xx: `200 <= s < 300`. */
  predicate IsSuccess(status: int)
  {
    200 <= status < 300
  }

  /** An `HttpException`: a status code, a message and an optional cause. */
  datatype HttpException = HttpException(code: int, message: string, cause: Option<Throwable>)

  /** Anything PHP code can throw: an `HttpException`, or any other error
      (engine errors, type errors, library exceptions), known here by its message. */
  datatype Throwable = Http(exception: HttpException) | Error(message: string)

  const NotFoundCode: int := 404
  const InternalServerErrorCode: int := 500

  /** Default messages of the two built-in exception classes, taken to be the
      standard reason phrases of section 6 of RFC 7231. */
  const NotFoundMessage: string := "Not Found"
  const InternalServerErrorMessage: string := "Internal Server Error"

  /** `new NotFoundHttpException`. */
  function NotFound(): (e: HttpException)
    ensures e.code == 404 && e.cause == None
  {
    HttpException(NotFoundCode, NotFoundMessage, None)
  }

  /** `new InternalServerErrorHttpException(null, $cause)`. */
  function InternalServerError(cause: Option<Throwable>): (e: HttpException)
    ensures e.code == 500 && e.cause == cause
  {
    HttpException(InternalServerErrorCode, InternalServerErrorMessage, cause)
  }
}

=== FILE: strings.dfy ===
/** Strings as the dispatcher sees them: substring search for the fallback page
    and the decimal rendering `sprintf('%s', $code)` used to build configuration keys. */
module Strings {

  /** `t` occurs in `s` starting at index `i`. */
  predicate OccursAt(s: string, t: string, i: nat)
  {
    i + |t| <= |s| && s[i..i + |t|] == t
  }

  /** `t` is a substring of `s`. */
  predicate Contains(s: string, t: string)
  {
    exists i: nat | i <= |s| :: OccursAt(s, t, i)
  }

  /** No character of `s` is `c`. */
  predicate Avoids(s: string, c: char)
  {
    forall k | 0 <= k < |s| :: s[k] != c
  }

  lemma AvoidsConcat(a: string, b: string, c: char)
    requires Avoids(a, c) && Avoids(b, c)
    ensures Avoids(a + b, c)
  {
  }

  /** Each character of an occurrence is the matching character of `t`. */
  lemma OccurrenceChar(s: string, t: string, i: int, k: int)
    ensures 0 <= i && OccursAt(s, t, i) && 0 <= k < |t| ==> s[i + k] == t[k]
  {
    if 0 <= i && OccursAt(s, t, i) && 0 <= k < |t| {
      assert s[i..i + |t|][k] == s[i + k];
    }
  }

  /** A string placed between two others is contained in the result. */
  lemma ContainsMiddle(a: string, t: string, b: string)
    ensures Contains(a + t + b, t)
  {
    var s := a + t + b;
    assert s[|a|..|a| + |t|] == t;
    assert OccursAt(s, t, |a|);
  }

  /** An occurrence of `t` in `a + m + b` that starts inside `m` and cannot
      reach into `b` is an occurrence in `m`. */
  lemma OccurrenceInside(a: string, m: string, b: string, t: string, i: nat)
    requires OccursAt(a + m + b, t, i)
    requires |a| <= i && i + |t| <= |a| + |m|
    ensures OccursAt(m, t, i - |a|)
  {
    var s := a + m + b;
    var j := i - |a|;
    forall k | 0 <= k < |t|
      ensures m[j + k] == t[k]
    {
      assert s[i + k] == s[i..i + |t|][k];
    }
    assert m[j..j + |t|] == t;
  }

  // ---------------------------------------------------------------------
  // Decimal rendering of integers
  // ---------------------------------------------------------------------

  predicate IsDigit(c: char)
  {
    '0' <= c <= '9'
  }

  function DigitChar(d: nat): (c: char)
    requires d < 10
    ensures IsDigit(c)
  {
    (48 + d) as char
  }

  function DigitValue(c: char): (d: nat)
    requires IsDigit(c)
    ensures d < 10
    ensures DigitChar(d) == c
  {
    c as int - 48
  }

  /** The shortest decimal spelling of `n` (no sign, no leading zeros). */
  function NatToDecimal(n: nat): (s: string)
    ensures |s| >= 1
    ensures forall k :: 0 <= k < |s| ==> IsDigit(s[k])
    ensures n < 10 <==> |s| == 1
    decreases n
  {
    if n < 10 then [DigitChar(n)] else NatToDecimal(n / 10) + [DigitChar(n % 10)]
  }

  /** Reads back a string of decimal digits. */
  function DecimalToNat(s: string): nat
    requires forall k :: 0 <= k < |s| ==> IsDigit(s[k])
    decreases |s|
  {
    if |s| == 0 then 0 else DecimalToNat(s[..|s| - 1]) * 10 + DigitValue(s[|s| - 1])
  }

  lemma {:induction false} DecimalRoundTrip(n: nat)
    ensures DecimalToNat(NatToDecimal(n)) == n
    decreases n
  {
    var s := NatToDecimal(n);
    if n < 10 {
      assert s[..0] == [];
    } else {
      var p := NatToDecimal(n / 10);
      assert s == p + [DigitChar(n % 10)];
      assert s[..|s| - 1] == p;
      DecimalRoundTrip(n / 10);
    }
  }

  /** The PHP string conversion of an integer: a minus sign before negative values. */
  function IntToDecimal(i: int): (s: string)
    ensures |s| >= 1
    ensures i < 0 <==> s[0] == '-'
  {
    if i < 0 then "-" + NatToDecimal(-i) else NatToDecimal(i)
  }

  /** Distinct naturals have distinct decimal spellings. */
  lemma NatToDecimalInjective(a: nat, b: nat)
    requires NatToDecimal(a) == NatToDecimal(b)
    ensures a == b
  {
    DecimalRoundTrip(a);
    DecimalRoundTrip(b);
  }

  /** A negative integer's spelling is the sign followed by its magnitude's. */
  lemma NegativeSpelling(i: int)
    requires i < 0
    ensures IntToDecimal(i)[1..] == NatToDecimal(-i)
  {
    assert IntToDecimal(i) == "-" + NatToDecimal(-i);
  }

  /** Distinct integers have distinct decimal spellings. */
  lemma IntToDecimalInjective(a: int, b: int)
    requires IntToDecimal(a) == IntToDecimal(b)
    ensures a == b
  {
    if a < 0 {
      assert b < 0;
      NegativeSpelling(a);
      NegativeSpelling(b);
      NatToDecimalInjective(-a, -b);
    } else {
      assert b >= 0;
      NatToDecimalInjective(a, b);
    }
  }
}

=== FILE: wrappers.dfy ===
/** Failure-carrying datatypes used to model PHP's exceptions as values. */
module Wrappers {

  /** A value that may be absent (PHP's `null`). */
  datatype Option<+T> = None | Some(value: T)

  /** Either a normal result or the value that was thrown instead. */
  datatype Result<+T, +E> = Ok(value: T) | Err(error: E)
}
